=== FILE: README.md ===
# Wise / TransferWise CSV statement normaliser — Dafny model

This project models the record-normalisation core of the two ofxstatement
plugins for Wise (formerly TransferWise) CSV exports. Each plugin turns a
CSV export into a statement: an ordered list of statement lines, plus the
currency and account id taken from the plugin configuration.

- **Legacy positional parser** (`Transferwise` module). It addresses columns
  by index and skips the header record. It drops rows whose currency column
  is not exactly the configured currency. It builds the memo from
  description, payment reference and exchange fields. It issues every line
  an id that is unique within the parser, attaches the payee account when
  column 12 is non-empty, and infers `DEBIT` for a positive amount and
  `CREDIT` otherwise, so zero is `CREDIT`.
- **Named-column parser** (`Wise` module). It addresses fields by header
  name and applies the same currency and memo rules. It takes the id
  verbatim from `TransferWise ID` and the type verbatim from
  `Transaction Type`, with no de-duplication and no sign inference.

Shared pieces:
- `Memo`: memo synthesis, identical in both parsers.
- `Dedup`: the unique-id search.
- `Ofx`: statement line, statement and error types.
- `Driver`: the host's record loop, in a stateless form for the named parser and in a form that threads the issued ids for the positional parser.
- `Layouts`: relates the two parsers on records that carry the same values.

A Python exception aborts the whole parse. It becomes `Failure(ParseError)`
and is threaded through the record fold. This covers an index out of range,
a missing dictionary key, a date or decimal that does not decode, and the
assertion that a line has an amount. The model raises these errors in the
same order as the source looks the fields up.

Parameters stand in for code that is not part of this model:
- date decoding and decimal parsing: `Ofx.Decoders`;
- the host's generic positional mapping: `Transferwise.BaseParse`, which may
  fail, skip the row or return a line. `Transferwise.MapColumns` is one
  instance, following the parser's index table;
- the host's hash-like id derivation: `Transferwise.IdSeed`.

The host's `parse` loop is modelled as an order-preserving filter-map over
the records that stops at the first error.

When no currency is configured, the code compares each row's currency string
with `None` using `!=`. That comparison is always true, so every row is
dropped. `UnsetCurrencyDropsAll` proves this for both parsers. The plugin's
test (tests/test_transferwise.py:9-18) builds the plugin with empty settings
and still expects five lines. The model follows the code.

## Model

| member | source | states |
|---|---|---|
| Transferwise.NewParser | src/ofxstatement/plugins/transferwise.py:33-39 | a new parser holds the given currency and account and has issued no id yet |
| Transferwise.SplitRecords | src/ofxstatement/plugins/transferwise.py:47-50 | the data records are every record after the header, in the original order; no records gives none |
| Transferwise.SplitRecordsDropsHeader | src/ofxstatement/plugins/transferwise.py:47-50 | splitting a header followed by data gives back exactly the data |
| Transferwise.MapColumns | src/ofxstatement/plugins/transferwise.py:26-31 | the base mapping succeeds exactly when columns up to 4 exist and amount (col 2) and date (col 1) decode; the line takes amount from col 2, date from col 1, memo from col 4 and reference number from col 0 |
| Transferwise.RowMemo | src/ofxstatement/plugins/transferwise.py:74-79 | the memo reads description, reference and exchange from/to/rate from columns 4, 5, 7, 8, 9; it fails exactly when the row has no column 9 |
| Memo.MakeMemo | src/ofxstatement/plugins/transferwise.py:81-86 | the memo starts with the description; a non-empty reference adds ` (ref)` right after it; the exchange clause `, rate from/to` ends the memo when all three exchange fields are non-empty; no other text is added, so with no reference and an incomplete exchange the memo is the description |
| Memo.ClauseOrder | src/ofxstatement/plugins/transferwise.py:81-86 | with both optional parts present, the memo splits into description, then reference clause, then exchange clause, with nothing in between |
| Transferwise.InferTrnType | src/ofxstatement/plugins/transferwise.py:70-71 | `DEBIT` exactly when the amount is positive, `CREDIT` exactly when it is zero or negative |
| Dedup.GenerateUniqueId | src/ofxstatement/plugins/transferwise.py:65 | the issued id is not among the ids already issued; it is the derived id when that is free and otherwise the first free counter-suffixed extension of it |
| Transferwise.ParseRecord | src/ofxstatement/plugins/transferwise.py:52-72 | a base failure propagates; a base line on a row without column 3 fails with that missing column; a base skip, or a currency other than the configured one (exact, case-sensitive), gives no line and issues no id; a kept line has the synthesized memo, the id issued for the seed of the base line with that memo (fresh, then added to the issued set), the payee `("", col 12)` when col 12 is non-empty and the base's account otherwise, the sign-inferred type, and the base's date, amount and reference number; a complete matching row with an amount is always kept |
| Transferwise.ParseRows | src/ofxstatement/plugins/transferwise.py:41-42 | at most one line per record; every line has an id and an amount, and its type follows the amount's sign; the issued set only grows; a successful parse means no row raised, so a row that raises anywhere in transferwise.py:54-72 aborts the whole parse; `LinesFollowKeptRows` ties each line to its row |
| Transferwise.RowsDoNotRaise | src/ofxstatement/plugins/transferwise.py:41-42 | after a successful run of the loop, every row normalises without error whatever ids had been issued when it came |
| Transferwise.ParsedIdsFresh | src/ofxstatement/plugins/transferwise.py:39-65 | ids within one parse are pairwise distinct and none was issued before it; afterwards the issued set is the earlier set plus exactly the lines' ids |
| Transferwise.LinesFollowKeptRows | src/ofxstatement/plugins/transferwise.py:54-72 | a successful parse emits exactly one line per kept row, in row order, and each line is the one its row gives: the base line's date, amount and reference number, the row's memo, the payee of column 12 (the base's when that column is empty), an id among the candidates for the base line's seed, and a type from the amount's sign |
| Transferwise.UnsetCurrencyDropsAll | src/ofxstatement/plugins/transferwise.py:58-61 | with no currency configured a successful parse has no lines |
| Transferwise.MatchingRowsAllKept | tests/test_transferwise.py:13-20 | when every row is complete, in the configured currency and mapped by the base to a line with an amount, the parse succeeds with exactly one line per row; with `ParsedIdsFresh` their ids are all distinct |
| Transferwise.FreshParserKeepsEveryRow | tests/test_transferwise.py:13-20 | a freshly constructed parser, given a header and rows all complete and in its currency, parses successfully with one line per row and pairwise distinct ids |
| Transferwise.Parse | src/ofxstatement/plugins/transferwise.py:41-45 | the statement's currency and account are the parser's configuration whatever the rows hold; there is exactly one line per kept data record; all ids are present, distinct, and not issued earlier by this parser |
| Wise.RecordMemo | src/ofxstatement_wise/wise.py:67-79 | the same memo rule over the `Description`, `Payment Reference`, `Exchange From`, `Exchange To` and `Exchange Rate` fields; fails exactly when one of them is missing |
| Wise.ParseRecord | src/ofxstatement_wise/wise.py:43-65 | a record without the id field fails first; a record whose id, date, description, amount or currency is missing or undecodable fails even if its currency would drop it; a decodable record gives no line exactly when its currency differs from the configured one; a kept line has the id and type verbatim, no reference number, the decoded date and amount, the synthesized memo, and a payee account exactly when the payee number is non-empty |
| Wise.ParseRecords | src/ofxstatement_wise/wise.py:33-34 | at most one line per record; every line is the line `ParseRecord` gives for one of the records, so it carries an id and an amount; a successful parse means no record raised, so a record whose extraction fails (wise.py:47-52) aborts the parse even when its currency would drop it |
| Wise.IdsAreRecordIds | src/ofxstatement_wise/wise.py:47-55 | a successful parse emits one line per record in the configured currency, in order, with that record's `TransferWise ID` as its id |
| Wise.ParseRecordsAppendFailure | src/ofxstatement_wise/wise.py:33-34 | an error in an earlier batch of records is the error of the whole parse |
| Wise.ParseRecordsAppend | src/ofxstatement_wise/wise.py:33-34 | parsing two batches in sequence gives the first batch's lines followed by the second's, so record order is kept |
| Wise.RepeatedRecordRepeatsId | src/ofxstatement_wise/wise.py:47 | ids are not de-duplicated: a kept record given twice yields two lines with the same id |
| Wise.UnsetCurrencyDropsAll | src/ofxstatement_wise/wise.py:52-55 | with no currency configured a successful parse has no lines |
| Wise.Parse | src/ofxstatement_wise/wise.py:33-37 | the statement's currency and account are the configuration; it has one line per record in the configured currency, each with an id |
| Layouts.LayoutsAgree | src/ofxstatement_wise/wise.py:43-65 | on a row and a record holding the same values, the two parsers keep or drop alike and agree on memo, amount and payee account; the legacy reference number equals the named line id |

## Left out

- Plugin wiring (`get_parser`), settings lookup and file opening: these are I/O plumbing. The configuration arrives as the `Parser` values.
- CSV tokenisation (`csv.reader` and `csv.DictReader`): this is library code. Records arrive already split, as sequences or as maps from header to string. DictReader's `None` padding of short rows is not modelled, so a missing value is a missing key.
- `datetime.strptime` and `Decimal(...)`: these are foreign decoders, supplied as the `Decoders` functions. Amounts are exact rationals (`real`).
- NaN and ±Infinity amounts: `Decimal` accepts them but a `real` cannot hold them. The comparison error Python raises for a NaN amount at transferwise.py:71 is therefore outside the model, and so is the named parser keeping a NaN-amount line (wise.py:50, 63-65). A decoder here either fails, which aborts the parse before the currency filter, or gives a rational.
- The host's generic `parse_record` beyond the index table: this is foreign code, supplied as the `BaseParse` parameter. `MapColumns` is one instance of it. The default type label `CHECK` of a fresh line is a placeholder that both parsers always overwrite.
- `generate_transaction_id`, the derived id: this is foreign code, supplied as the `IdSeed` parameter.
- Dedup.GenerateUniqueId: its source is not part of this model. The counter-suffix format `base-k` is an assumption. Its uniqueness contract does not depend on that format.
- The host's `parse` loop: this is foreign code. The model assumes an order-preserving filter-map that aborts at the first error. Skipping of empty records and per-line validation inside that loop are not modelled.
- Calling `parse` twice on one parser: the input stream is consumed by the first call. The ids issued by a parse that then aborts are not carried over.
- An "accept every currency" mode when no currency is configured: the code has no such mode. An unset currency drops every row.

=== FILE: dedup.dfy ===
/**
 * Issuing transaction ids that are unique within one parser: a base id is
 * tried first, then the base with a counter suffix `-1`, `-2`, ... until a
 * candidate not yet issued is found.
 */
module Dedup {

  function DigitChar(d: nat): (c: char)
    requires d < 10
    ensures '0' <= c <= '9'
  {
    ('0' as int + d) as char
  }

  function DigitValue(c: char): (d: nat)
    requires '0' <= c <= '9'
    ensures d < 10
    ensures DigitChar(d) == c
  {
    c as int - '0' as int
  }

  predicate IsDigits(s: string) {
    forall i :: 0 <= i < |s| ==> '0' <= s[i] <= '9'
  }

  /** Decimal rendering of a counter, most significant digit first. */
  function Decimal(n: nat): (s: string)
    ensures 0 < |s| && IsDigits(s)
    decreases n
  {
    if n < 10 then [DigitChar(n)] else Decimal(n / 10) + [DigitChar(n % 10)]
  }

  /** The value a string of decimal digits denotes. */
  function DecimalValue(s: string): nat
    requires IsDigits(s)
    decreases |s|
  {
    if |s| == 0 then 0 else 10 * DecimalValue(s[..|s| - 1]) + DigitValue(s[|s| - 1])
  }

  /** Rendering a counter and reading it back gives the counter. */
  lemma {:induction false} DecimalRoundTrip(n: nat)
    ensures DecimalValue(Decimal(n)) == n
    decreases n
  {
    if n >= 10 {
      var s := Decimal(n);
      assert s[..|s| - 1] == Decimal(n / 10);
      assert DigitValue(s[|s| - 1]) == n % 10 by {
        assert s[|s| - 1] == DigitChar(n % 10);
      }
      DecimalRoundTrip(n / 10);
    } else {
      assert DigitValue(DigitChar(n)) == n;
    }
  }

  /** The k-th candidate id: the base itself, then the base with suffix `-k`. */
  function Candidate(base: string, k: nat): (c: string)
    ensures base <= c
    ensures c == base <==> k == 0
  {
    if k == 0 then base else base + "-" + Decimal(k)
  }

  /** Different counters give different candidates. */
  lemma CandidateInjective(base: string, j: nat, k: nat)
    requires Candidate(base, j) == Candidate(base, k)
    ensures j == k
  {
    if j != 0 && k != 0 {
      assert Candidate(base, j)[|base| + 1..] == Decimal(j);
      assert Candidate(base, k)[|base| + 1..] == Decimal(k);
      DecimalRoundTrip(j);
      DecimalRoundTrip(k);
    }
  }

  /** The candidates with counter below k. */
  function Tried(base: string, k: nat): (t: set<string>)
    ensures forall j :: 0 <= j < k ==> Candidate(base, j) in t
    ensures forall c :: c in t ==> exists j :: 0 <= j < k && c == Candidate(base, j)
  {
    if k == 0 then {} else Tried(base, k - 1) + {Candidate(base, k - 1)}
  }

  /** The first k candidates are k different ids. */
  lemma {:induction false} TriedSize(base: string, k: nat)
    ensures |Tried(base, k)| == k
  {
    if k > 0 {
      TriedSize(base, k - 1);
      if Candidate(base, k - 1) in Tried(base, k - 1) {
        var j :| 0 <= j < k - 1 && Candidate(base, k - 1) == Candidate(base, j);
        CandidateInjective(base, j, k - 1);
      }
    }
  }

  lemma {:induction false} SubsetSize<T>(a: set<T>, b: set<T>)
    requires a <= b
    ensures |a| <= |b|
  {
    if a != {} {
      var x :| x in a;
      SubsetSize(a - {x}, b - {x});
    }
  }

  /**
   * The least counter from k on whose candidate is free, given that every
   * candidate below k is taken. There is one, since only |issued| ids are
   * taken and the candidates are pairwise different.
   */
  function FreeSuffix(base: string, issued: set<string>, k: nat): (r: nat)
    requires Tried(base, k) <= issued
    ensures k <= r
    ensures Candidate(base, r) !in issued
    ensures Tried(base, r) <= issued
    decreases |issued| - k
  {
    if Candidate(base, k) !in issued then k
    else
      TriedSize(base, k + 1);
      SubsetSize(Tried(base, k + 1), issued);
      FreeSuffix(base, issued, k + 1)
  }

  /**
   * The id issued for a line whose derived id is `base`, against the ids
   * already issued by the same parser: never one of them, the base when it
   * is free, and otherwise the base extended with a counter suffix.
   */
  function GenerateUniqueId(base: string, issued: set<string>): (id: string)
    ensures id !in issued
    ensures base <= id
    ensures base !in issued ==> id == base
    ensures exists k: nat :: id == Candidate(base, k) && Tried(base, k) <= issued
  {
    var k := FreeSuffix(base, issued, 0);
    Candidate(base, k)
  }
}

=== FILE: driver.dfy ===
/**
 * The host's parse loop: each record is normalised in order, a kept line
 * is appended, a skipped record adds nothing, and the first error aborts
 * the whole parse. `FilterMap` is the loop for a parser without state;
 * `Fold` threads the set of ids a parser has issued from one record to
 * the next.
 */
module Driver {
  import opened Wrappers
  import opened Ofx

  /** The lines one normalised record contributes. */
  function Emitted(line: Option<Line>): (s: seq<Line>)
    ensures |s| <= 1
  {
    if line.Some? then [line.value] else []
  }

  function FilterMap<R>(recs: seq<R>, f: R -> Result<Option<Line>, ParseError>): (r: Result<seq<Line>, ParseError>)
    ensures r.Success? ==> |r.value| <= |recs|
    decreases |recs|
  {
    if |recs| == 0 then Success([])
    else
      var line :- f(recs[0]);
      var rest :- FilterMap(recs[1..], f);
      Success(Emitted(line) + rest)
  }

  /** Every line of a successful parse is the line of one of the records. */
  lemma {:induction false} LinesComeFromRecords<R>(recs: seq<R>, f: R -> Result<Option<Line>, ParseError>)
    requires FilterMap(recs, f).Success?
    ensures forall i :: 0 <= i < |FilterMap(recs, f).value| ==>
              exists j :: 0 <= j < |recs| && f(recs[j]) == Success(Some(FilterMap(recs, f).value[i]))
    decreases |recs|
  {
    if |recs| > 0 {
      LinesComeFromRecords(recs[1..], f);
      var lines := FilterMap(recs, f).value;
      var head := Emitted(f(recs[0]).value);
      var rest := FilterMap(recs[1..], f).value;
      assert lines == head + rest;
      forall i | 0 <= i < |lines|
        ensures exists j :: 0 <= j < |recs| && f(recs[j]) == Success(Some(lines[i]))
      {
        if i < |head| {
          assert f(recs[0]) == Success(Some(lines[i]));
        } else {
          assert lines[i] == rest[i - |head|];
          var j :| 0 <= j < |recs[1..]| && f(recs[1..][j]) == Success(Some(rest[i - |head|]));
          assert f(recs[j + 1]) == Success(Some(lines[i]));
        }
      }
    }
  }

  /** A successful parse means no record raised: each one normalised without error. */
  lemma {:induction false} NoRecordFailed<R>(recs: seq<R>, f: R -> Result<Option<Line>, ParseError>)
    requires FilterMap(recs, f).Success?
    ensures forall j :: 0 <= j < |recs| ==> f(recs[j]).Success?
    decreases |recs|
  {
    if |recs| > 0 {
      assert forall j :: 0 <= j < |recs[1..]| ==> recs[1..][j] == recs[j + 1];
      NoRecordFailed(recs[1..], f);
    }
  }

  /** An error in an earlier batch of records is the error of the whole parse. */
  lemma {:induction false} AppendFailure<R>(a: seq<R>, b: seq<R>, f: R -> Result<Option<Line>, ParseError>)
    requires FilterMap(a, f).Failure?
    ensures FilterMap(a + b, f) == FilterMap(a, f)
    decreases |a|
  {
    assert (a + b)[0] == a[0];
    assert (a + b)[1..] == a[1..] + b;
    if f(a[0]).Success? {
      AppendFailure(a[1..], b, f);
    }
  }

  /**
   * The loop is compositional: when two batches of records parse, their
   * concatenation parses to the first batch's lines followed by the
   * second's.
   */
  lemma {:induction false} Append<R>(a: seq<R>, b: seq<R>, f: R -> Result<Option<Line>, ParseError>)
    requires FilterMap(a, f).Success? && FilterMap(b, f).Success?
    ensures FilterMap(a + b, f) == Success(FilterMap(a, f).value + FilterMap(b, f).value)
    decreases |a|
  {
    if |a| == 0 {
      assert a + b == b;
      assert FilterMap(a, f).value + FilterMap(b, f).value == FilterMap(b, f).value;
    } else {
      assert (a + b)[0] == a[0];
      assert (a + b)[1..] == a[1..] + b;
      Append(a[1..], b, f);
      var head := Emitted(f(a[0]).value);
      var restA := FilterMap(a[1..], f).value;
      var lb := FilterMap(b, f).value;
      assert head + (restA + lb) == (head + restA) + lb;
    }
  }

  /** The records a predicate keeps, in order. */
  function Filter<R>(recs: seq<R>, keep: R -> bool): (kept: seq<R>)
    ensures |kept| <= |recs|
    ensures forall i :: 0 <= i < |kept| ==> keep(kept[i])
    decreases |recs|
  {
    if |recs| == 0 then []
    else if keep(recs[0]) then [recs[0]] + Filter(recs[1..], keep)
    else Filter(recs[1..], keep)
  }

  /**
   * When a record yields a line exactly when `keep` holds of it, a
   * successful parse is the normalisation of the kept records, one line
   * each, in order.
   */
  lemma {:induction false} LinesAreKeptRecords<R>(recs: seq<R>, f: R -> Result<Option<Line>, ParseError>, keep: R -> bool)
    requires FilterMap(recs, f).Success?
    requires forall j :: 0 <= j < |recs| && f(recs[j]).Success? ==> (f(recs[j]).value.Some? <==> keep(recs[j]))
    ensures var lines := FilterMap(recs, f).value;
            var kept := Filter(recs, keep);
            && |lines| == |kept|
            && forall i :: 0 <= i < |lines| ==> f(kept[i]) == Success(Some(lines[i]))
    decreases |recs|
  {
    if |recs| > 0 {
      assert forall j :: 0 <= j < |recs[1..]| ==> recs[1..][j] == recs[j + 1];
      LinesAreKeptRecords(recs[1..], f, keep);
      var lines := FilterMap(recs, f).value;
      var rest := FilterMap(recs[1..], f).value;
      var kept := Filter(recs, keep);
      var keptRest := Filter(recs[1..], keep);
      if keep(recs[0]) {
        assert lines == [f(recs[0]).value.value] + rest;
        assert kept == [recs[0]] + keptRest;
        forall i | 0 <= i < |lines|
          ensures f(kept[i]) == Success(Some(lines[i]))
        {
          if i > 0 {
            assert lines[i] == rest[i - 1];
            assert kept[i] == keptRest[i - 1];
          }
        }
      } else {
        assert lines == rest;
        assert kept == keptRest;
      }
    }
  }

  /** What one record contributes to a stateful parse: at most one line, and the ids issued afterwards. */
  datatype Step = Step(line: Option<Line>, issued: set<string>)

  function Fold<R>(recs: seq<R>, step: (R, set<string>) -> Result<Step, ParseError>, issued: set<string>): (r: Result<(seq<Line>, set<string>), ParseError>)
    ensures r.Success? ==> |r.value.0| <= |recs|
    decreases |recs|
  {
    if |recs| == 0 then Success(([], issued))
    else
      var st :- step(recs[0], issued);
      var rest :- Fold(recs[1..], step, st.issued);
      Success((Emitted(st.line) + rest.0, rest.1))
  }

  /**
   * The id discipline of one step: a line gets an id not issued before,
   * which is then added to the issued set; no line, no new id.
   */
  predicate IssuesFresh(st: Step, issued: set<string>) {
    if st.line.Some? then
      && st.line.value.id.Some?
      && st.line.value.id.value !in issued
      && st.issued == issued + {st.line.value.id.value}
    else st.issued == issued
  }

  /**
   * When every step keeps the id discipline, the ids of a whole parse are
   * pairwise different and new, and the issued set grows by exactly them.
   */
  lemma {:induction false} FoldIdsFresh<R>(recs: seq<R>, step: (R, set<string>) -> Result<Step, ParseError>, issued: set<string>)
    requires Fold(recs, step, issued).Success?
    requires forall j, s :: 0 <= j < |recs| && step(recs[j], s).Success? ==> IssuesFresh(step(recs[j], s).value, s)
    ensures var (lines, final) := Fold(recs, step, issued).value;
            && HasIds(lines)
            && DistinctIds(lines)
            && (forall i :: 0 <= i < |lines| ==> lines[i].id.value !in issued)
            && final == issued + IdSet(lines)
    decreases |recs|
  {
    if |recs| > 0 {
      assert forall j :: 0 <= j < |recs[1..]| ==> recs[1..][j] == recs[j + 1];
      var st := step(recs[0], issued).value;
      var rest := Fold(recs[1..], step, st.issued).value;
      FoldIdsFresh(recs[1..], step, st.issued);
      var lines := Fold(recs, step, issued).value.0;
      assert IssuesFresh(st, issued);
      if st.line.Some? {
        assert lines == [st.line.value] + rest.0;
        assert lines[1..] == rest.0;
        forall i, j | 0 <= i < j < |lines|
          ensures lines[i].id != lines[j].id
        {
          assert lines[j] == rest.0[j - 1];
          if i > 0 {
            assert lines[i] == rest.0[i - 1];
          }
        }
        forall i | 0 <= i < |lines|
          ensures lines[i].id.value !in issued
        {
          if i > 0 {
            assert lines[i] == rest.0[i - 1];
          }
        }
      } else {
        assert lines == rest.0;
      }
    }
  }

  /**
   * When a step yields a line exactly for the records `keep` holds of, and
   * every line it yields stands in relation `good` to its record, a
   * successful parse has one line per kept record, in order, each in that
   * relation to its record.
   */
  lemma {:induction false} FoldFollowsKept<R>(recs: seq<R>, step: (R, set<string>) -> Result<Step, ParseError>, issued: set<string>,
                                              keep: R -> bool, good: (R, Line) -> bool)
    requires Fold(recs, step, issued).Success?
    requires forall j, s :: 0 <= j < |recs| && step(recs[j], s).Success? ==>
               (step(recs[j], s).value.line.Some? <==> keep(recs[j]))
    requires forall j, s :: 0 <= j < |recs| && step(recs[j], s).Success? && step(recs[j], s).value.line.Some? ==>
               good(recs[j], step(recs[j], s).value.line.value)
    ensures var lines := Fold(recs, step, issued).value.0;
            var kept := Filter(recs, keep);
            && |lines| == |kept|
            && forall i :: 0 <= i < |lines| ==> good(kept[i], lines[i])
    decreases |recs|
  {
    if |recs| > 0 {
      assert forall j :: 0 <= j < |recs[1..]| ==> recs[1..][j] == recs[j + 1];
      var st := step(recs[0], issued).value;
      FoldFollowsKept(recs[1..], step, st.issued, keep, good);
      var lines := Fold(recs, step, issued).value.0;
      var rest := Fold(recs[1..], step, st.issued).value.0;
      var kept := Filter(recs, keep);
      var keptRest := Filter(recs[1..], keep);
      if keep(recs[0]) {
        assert lines == [st.line.value] + rest;
        assert kept == [recs[0]] + keptRest;
        forall i | 0 <= i < |lines|
          ensures good(kept[i], lines[i])
        {
          if i > 0 {
            assert lines[i] == rest[i - 1];
            assert kept[i] == keptRest[i - 1];
          }
        }
      } else {
        assert lines == rest;
        assert kept == keptRest;
      }
    }
  }

  /**
   * When whether a step raises depends on its record alone (`ok` of it),
   * a successful parse means no record raised.
   */
  lemma {:induction false} FoldNoStepFailed<R>(recs: seq<R>, step: (R, set<string>) -> Result<Step, ParseError>, issued: set<string>,
                                               ok: R -> bool)
    requires Fold(recs, step, issued).Success?
    requires forall j, s :: 0 <= j < |recs| ==> (step(recs[j], s).Success? <==> ok(recs[j]))
    ensures forall j :: 0 <= j < |recs| ==> ok(recs[j])
    decreases |recs|
  {
    if |recs| > 0 {
      assert forall j :: 0 <= j < |recs[1..]| ==> recs[1..][j] == recs[j + 1];
      var st := step(recs[0], issued).value;
      FoldNoStepFailed(recs[1..], step, st.issued, ok);
    }
  }

  /** When every step succeeds with a line, the parse succeeds with one line per record. */
  lemma {:induction false} FoldKeepsAll<R>(recs: seq<R>, step: (R, set<string>) -> Result<Step, ParseError>, issued: set<string>)
    requires forall j, s :: 0 <= j < |recs| ==> step(recs[j], s).Success? && step(recs[j], s).value.line.Some?
    ensures Fold(recs, step, issued).Success?
    ensures |Fold(recs, step, issued).value.0| == |recs|
    decreases |recs|
  {
    if |recs| > 0 {
      assert forall j :: 0 <= j < |recs[1..]| ==> recs[1..][j] == recs[j + 1];
      var st := step(recs[0], issued).value;
      FoldKeepsAll(recs[1..], step, st.issued);
    }
  }

  /** When no step yields a line, a successful parse has no lines. */
  lemma {:induction false} FoldKeepsNone<R>(recs: seq<R>, step: (R, set<string>) -> Result<Step, ParseError>, issued: set<string>)
    requires Fold(recs, step, issued).Success?
    requires forall j, s :: 0 <= j < |recs| && step(recs[j], s).Success? ==> step(recs[j], s).value.line.None?
    ensures Fold(recs, step, issued).value.0 == []
    decreases |recs|
  {
    if |recs| > 0 {
      assert forall j :: 0 <= j < |recs[1..]| ==> recs[1..][j] == recs[j + 1];
      var st := step(recs[0], issued).value;
      FoldKeepsNone(recs[1..], step, st.issued);
    }
  }
}

=== FILE: layouts.dfy ===
/**
 * The two exports describe the same transactions in two layouts. Where a
 * positional row and a named record hold the same field values, the two
 * parsers make the same keep/drop decision and agree on memo, amount and
 * payee account; the legacy parser keeps the TransferWise ID as reference
 * number, where the named parser makes it the line id.
 */
module Layouts {
  import opened Wrappers
  import opened Ofx
  import Transferwise
  import Wise

  /** `row` and `rec` carry the same values under the legacy column indices and the named headers. */
  predicate Corresponds(row: Transferwise.Row, rec: Wise.Record) {
    && |row| > Transferwise.PayeeAccountColumn
    && Wise.IdKey in rec && rec[Wise.IdKey] == row[Transferwise.RefnumColumn]
    && Wise.AmountKey in rec && rec[Wise.AmountKey] == row[Transferwise.AmountColumn]
    && Wise.CurrencyKey in rec && rec[Wise.CurrencyKey] == row[Transferwise.CurrencyColumn]
    && Wise.DescriptionKey in rec && rec[Wise.DescriptionKey] == row[Transferwise.DescriptionColumn]
    && Wise.ReferenceKey in rec && rec[Wise.ReferenceKey] == row[Transferwise.ReferenceColumn]
    && Wise.ExchangeFromKey in rec && rec[Wise.ExchangeFromKey] == row[Transferwise.ExchangeFromColumn]
    && Wise.ExchangeToKey in rec && rec[Wise.ExchangeToKey] == row[Transferwise.ExchangeToColumn]
    && Wise.ExchangeRateKey in rec && rec[Wise.ExchangeRateKey] == row[Transferwise.ExchangeRateColumn]
    && Wise.PayeeAccountKey in rec && rec[Wise.PayeeAccountKey] == row[Transferwise.PayeeAccountColumn]
  }

  /**
   * Both parsers, run on corresponding records with the legacy parser's
   * base mapping following its index table, keep the record in the same
   * circumstances and, when they keep it, produce the same memo, amount
   * and payee account.
   */
  lemma LayoutsAgree(row: Transferwise.Row, rec: Wise.Record, currency: Option<string>,
                     legacyDec: Decoders, dec: Decoders, seed: Transferwise.IdSeed, issued: set<string>)
    requires Corresponds(row, rec)
    requires legacyDec.amount(row[Transferwise.AmountColumn]) == dec.amount(rec[Wise.AmountKey])
    requires Transferwise.ParseRecord(row, currency, r => Transferwise.MapColumns(legacyDec, r), seed, issued).Success?
    requires Wise.ParseRecord(rec, currency, dec).Success?
    ensures var legacy := Transferwise.ParseRecord(row, currency, r => Transferwise.MapColumns(legacyDec, r), seed, issued).value.line;
            var named := Wise.ParseRecord(rec, currency, dec).value;
            && (legacy.Some? <==> named.Some?)
            && (legacy.Some? && named.Some? ==>
                  && legacy.value.memo == named.value.memo
                  && legacy.value.amount == named.value.amount
                  && legacy.value.bankAccountTo == named.value.bankAccountTo
                  && legacy.value.refnum == named.value.id)
  {
  }
}

=== FILE: memo.dfy ===
/** Memo synthesis, identical in both parsers. */
module Memo {

  /** The payment-reference clause: ` (<ref>)`. */
  function RefClause(payref: string): string {
    " (" + payref + ")"
  }

  /** The exchange clause: `, <rate> <from>/<to>`. */
  function ExchangeClause(excFrom: string, excTo: string, excRate: string): string {
    ", " + excRate + " " + excFrom + "/" + excTo
  }

  /** The exchange clause is written only when all three fields are non-empty. */
  predicate HasExchange(excFrom: string, excTo: string, excRate: string) {
    excFrom != "" && excTo != "" && excRate != ""
  }

  predicate EndsWith(s: string, suffix: string) {
    |suffix| <= |s| && s[|s| - |suffix|..] == suffix
  }

  /**
   * The memo: the description, then the reference clause when a reference
   * is given, then the exchange clause when all exchange fields are given.
   * The ensures place each clause: the description leads, the reference
   * clause follows it immediately, the exchange clause closes the memo, and
   * nothing else is written (no stray separator).
   */
  function MakeMemo(descr: string, payref: string, excFrom: string, excTo: string, excRate: string): (memo: string)
    ensures descr <= memo
    ensures payref != "" ==> descr + RefClause(payref) <= memo
    ensures HasExchange(excFrom, excTo, excRate) ==> EndsWith(memo, ExchangeClause(excFrom, excTo, excRate))
    ensures |memo| == |descr|
                      + (if payref != "" then |RefClause(payref)| else 0)
                      + (if HasExchange(excFrom, excTo, excRate) then |ExchangeClause(excFrom, excTo, excRate)| else 0)
    ensures payref == "" && !HasExchange(excFrom, excTo, excRate) ==> memo == descr
  {
    var withRef := if payref != "" then descr + RefClause(payref) else descr;
    if HasExchange(excFrom, excTo, excRate) then withRef + ExchangeClause(excFrom, excTo, excRate) else withRef
  }

  /**
   * With both optional parts present the reference clause precedes the
   * exchange clause, and they meet with no separator between them.
   */
  lemma ClauseOrder(descr: string, payref: string, excFrom: string, excTo: string, excRate: string)
    requires payref != "" && HasExchange(excFrom, excTo, excRate)
    ensures var memo := MakeMemo(descr, payref, excFrom, excTo, excRate);
            var cut := |descr| + |RefClause(payref)|;
            cut <= |memo|
            && memo[..|descr|] == descr
            && memo[|descr|..cut] == RefClause(payref)
            && memo[cut..] == ExchangeClause(excFrom, excTo, excRate)
  {
  }
}

=== FILE: ofx.dfy ===
/** The statement objects the parsers fill in, and the errors that abort a parse. */
module Ofx {
  import opened Wrappers

  /** A decoded date (and, for the newer export, time of day). */
  datatype Timestamp = Timestamp(
    year: int, month: int, day: int,
    hour: int, minute: int, second: int, microsecond: int)

  /** A counterparty account: a bank identifier and an account number. */
  datatype BankAccount = BankAccount(bankId: string, acctId: string)

  /** One statement line. Fields the host leaves unset are `None`. */
  datatype Line = Line(
    id: Option<string>,
    refnum: Option<string>,
    date: Option<Timestamp>,
    memo: string,
    amount: Option<real>,
    trntype: string,
    bankAccountTo: Option<BankAccount>)

  /** The result of one parse: lines in record order plus configured metadata. */
  datatype Statement = Statement(
    lines: seq<Line>,
    currency: Option<string>,
    accountId: Option<string>)

  /** Why a parse was aborted. */
  datatype ParseError =
    | MissingColumn(index: nat, width: nat)   // positional row too short
    | MissingField(name: string)              // named record lacks a header
    | BadDate(text: string)                   // date text does not decode
    | BadAmount(text: string)                 // amount text is not a decimal
    | AmountMissing                           // a line reached type inference without an amount

  /**
   * The foreign text decoders: date parsing against the export's fixed
   * pattern and exact decimal parsing. `None` means the decoder raised.
   */
  datatype Decoders = Decoders(date: string -> Option<Timestamp>, amount: string -> Option<real>)

  function DecodeDate(dec: Decoders, text: string): Result<Timestamp, ParseError> {
    match dec.date(text)
    case Some(t) => Success(t)
    case None => Failure(BadDate(text))
  }

  function DecodeAmount(dec: Decoders, text: string): Result<real, ParseError> {
    match dec.amount(text)
    case Some(a) => Success(a)
    case None => Failure(BadAmount(text))
  }

  /** The counterparty attached when a row names one: bank unknown, number only. */
  function PayeeAccount(accNo: string): BankAccount {
    BankAccount("", accNo)
  }

  /** The settled payee rule shared by both exports. */
  function PayeeFor(accNo: string, otherwise: Option<BankAccount>): Option<BankAccount> {
    if accNo != "" then Some(PayeeAccount(accNo)) else otherwise
  }

  /** Every line carries an id. */
  predicate HasIds(lines: seq<Line>) {
    forall i :: 0 <= i < |lines| ==> lines[i].id.Some?
  }

  /** No two lines share an id. */
  predicate DistinctIds(lines: seq<Line>) {
    forall i, j :: 0 <= i < j < |lines| ==> lines[i].id != lines[j].id
  }

  /** The ids the lines carry. */
  function IdSet(lines: seq<Line>): set<string> {
    if |lines| == 0 then {}
    else (if lines[0].id.Some? then {lines[0].id.value} else {}) + IdSet(lines[1..])
  }
}

=== FILE: transferwise.dfy ===
/**
 * The legacy positional parser of the TransferWise CSV export: fields are
 * addressed by zero-based column index, the header record is skipped, rows
 * in other currencies are dropped, and every kept line gets an id that is
 * unique within the parser, a synthesized memo, the payee account when one
 * is named, and a transaction type inferred from the sign of its amount.
 */
module Transferwise {
  import opened Wrappers
  import opened Ofx
  import Memo
  import Dedup
  import opened Driver

  /** Column indices of the legacy export. */
  const RefnumColumn: nat := 0
  const DateColumn: nat := 1
  const AmountColumn: nat := 2
  const CurrencyColumn: nat := 3
  const DescriptionColumn: nat := 4
  const ReferenceColumn: nat := 5
  const ExchangeFromColumn: nat := 7
  const ExchangeToColumn: nat := 8
  const ExchangeRateColumn: nat := 9
  const PayeeAccountColumn: nat := 12

  /** A tokenised CSV record. */
  type Row = seq<string>

  /**
   * The host's generic record mapping, run before any of this parser's own
   * rules: it may fail, skip the row (`None`) or give a partly filled line.
   */
  type BaseParse = Row -> Result<Option<Line>, ParseError>

  /** The deterministic id the host derives from a line's date, memo and amount. */
  type IdSeed = Line -> string

  /** The type label of a freshly created statement line. */
  const DefaultTrnType := "CHECK"

  /** Parser state: the configured currency and account, and the ids issued so far. */
  datatype Parser = Parser(currency: Option<string>, accountId: Option<string>, unique: set<string>)

  /** A parser as constructed: no id issued yet. */
  function NewParser(currency: Option<string>, accountId: Option<string>): (p: Parser)
    ensures p.unique == {} && p.currency == currency && p.accountId == accountId
  {
    Parser(currency, accountId, {})
  }

  /** Indexing a row; a missing column raises. */
  function Column(row: Row, i: nat): (r: Result<string, ParseError>)
    ensures r.Success? <==> i < |row|
    ensures r.Success? ==> r.value == row[i]
    ensures r.Failure? ==> r.error == MissingColumn(i, |row|)
  {
    if i < |row| then Success(row[i]) else Failure(MissingColumn(i, |row|))
  }

  /** The data records: every record after the header, in file order. */
  function SplitRecords(records: seq<Row>): (data: seq<Row>)
    ensures |data| == if |records| == 0 then 0 else |records| - 1
    ensures forall i :: 0 <= i < |data| ==> data[i] == records[i + 1]
  {
    if |records| == 0 then [] else records[1..]
  }

  /** Putting a header in front of the data records and splitting again gives the data back. */
  lemma SplitRecordsDropsHeader(header: Row, data: seq<Row>)
    ensures SplitRecords([header] + data) == data
  {
  }

  /**
   * A base mapping that follows this parser's index table: amount from
   * column 2, date from column 1, memo from column 4 and reference number
   * from column 0, looked up in that order; a missing column or an
   * undecodable value raises.
   */
  function MapColumns(dec: Decoders, row: Row): (r: Result<Option<Line>, ParseError>)
    ensures r.Success? <==> |row| > DescriptionColumn
                            && dec.amount(row[AmountColumn]).Some?
                            && dec.date(row[DateColumn]).Some?
    ensures r.Success? ==> r.value.Some?
                           && r.value.value.amount == dec.amount(row[AmountColumn])
                           && r.value.value.date == dec.date(row[DateColumn])
                           && r.value.value.memo == row[DescriptionColumn]
                           && r.value.value.refnum == Some(row[RefnumColumn])
                           && r.value.value.bankAccountTo.None?
  {
    var amountText :- Column(row, AmountColumn);
    var amount :- DecodeAmount(dec, amountText);
    // columns 1 and 0 lie below column 2, so their lookups cannot fail here
    var date :- DecodeDate(dec, row[DateColumn]);
    var memo :- Column(row, DescriptionColumn);
    Success(Some(Line(None, Some(row[RefnumColumn]), Some(date), memo, Some(amount), DefaultTrnType, None)))
  }

  /** The memo of a row, from its description, reference and exchange columns. */
  function RowMemo(row: Row): (r: Result<string, ParseError>)
    ensures r.Success? <==> |row| > ExchangeRateColumn
    ensures r.Success? ==> r.value == Memo.MakeMemo(row[DescriptionColumn], row[ReferenceColumn],
                                                    row[ExchangeFromColumn], row[ExchangeToColumn],
                                                    row[ExchangeRateColumn])
  {
    var descr :- Column(row, DescriptionColumn);
    var payref :- Column(row, ReferenceColumn);
    var excFrom :- Column(row, ExchangeFromColumn);
    var excTo :- Column(row, ExchangeToColumn);
    var excRate :- Column(row, ExchangeRateColumn);
    Success(Memo.MakeMemo(descr, payref, excFrom, excTo, excRate))
  }

  /** Money leaving the account is a debit; everything else, zero included, a credit. */
  function InferTrnType(amount: real): (t: string)
    ensures t == "DEBIT" <==> amount > 0.0
    ensures t == "CREDIT" <==> amount <= 0.0
  {
    if amount > 0.0 then "DEBIT" else "CREDIT"
  }

  /** A row the parser keeps: base mapping gives a line and the currency matches. */
  predicate Keeps(row: Row, currency: Option<string>, base: BaseParse) {
    base(row).Success? && base(row).value.Some?
    && |row| > CurrencyColumn && Some(row[CurrencyColumn]) == currency
  }

  /**
   * One record to at most one line. The base mapping runs first; a skipped
   * row or a row in another currency gives no line and issues no id; a kept
   * row gets its memo, a fresh id (added to the issued set), the payee
   * account when column 12 is non-empty, and a sign-inferred type, while
   * the base line's date, amount and reference number pass through.
   */
  function ParseRecord(row: Row, currency: Option<string>, base: BaseParse, seed: IdSeed, issued: set<string>): (r: Result<Step, ParseError>)
    ensures base(row).Failure? ==> r == Failure(base(row).error)
    ensures base(row).Success? && base(row).value.None? ==> r == Success(Step(None, issued))
    ensures (base(row).Success? && base(row).value.Some? && |row| > CurrencyColumn
             && Some(row[CurrencyColumn]) != currency) ==> r == Success(Step(None, issued))
    ensures (base(row).Success? && base(row).value.Some? && |row| <= CurrencyColumn)
            ==> r == Failure(MissingColumn(CurrencyColumn, |row|))
    ensures r.Success? && r.value.line.None? ==> r.value.issued == issued && !Keeps(row, currency, base)
    ensures r.Success? && r.value.line.Some? ==>
              var l := r.value.line.value;
              var b := base(row).value.value;
              && Keeps(row, currency, base)
              && |row| > PayeeAccountColumn
              && l.id == Some(Dedup.GenerateUniqueId(seed(b.(memo := l.memo)), issued))
              && l.id.value !in issued
              && r.value.issued == issued + {l.id.value}
              && l.memo == Memo.MakeMemo(row[DescriptionColumn], row[ReferenceColumn],
                                         row[ExchangeFromColumn], row[ExchangeToColumn],
                                         row[ExchangeRateColumn])
              && l.amount == b.amount && l.amount.Some?
              && l.trntype == InferTrnType(l.amount.value)
              && (row[PayeeAccountColumn] != "" ==> l.bankAccountTo == Some(PayeeAccount(row[PayeeAccountColumn])))
              && (row[PayeeAccountColumn] == "" ==> l.bankAccountTo == b.bankAccountTo)
              && l.date == b.date && l.refnum == b.refnum
    ensures (Keeps(row, currency, base) && |row| > PayeeAccountColumn
             && base(row).value.value.amount.Some?) ==> r.Success? && r.value.line.Some?
  {
    var parsed :- base(row);
    if parsed.None? then Success(Step(None, issued))
    else
      var ccy :- Column(row, CurrencyColumn);
      if Some(ccy) != currency then Success(Step(None, issued))
      else
        var memo :- RowMemo(row);
        var withMemo := parsed.value.(memo := memo);
        var id := Dedup.GenerateUniqueId(seed(withMemo), issued);
        var payeeAccNo :- Column(row, PayeeAccountColumn);
        var withId := withMemo.(id := Some(id), bankAccountTo := PayeeFor(payeeAccNo, withMemo.bankAccountTo));
        if withId.amount.None? then Failure(AmountMissing)
        else Success(Step(Some(withId.(trntype := InferTrnType(withId.amount.value))), issued + {id}))
  }

  /** `ParseRecord` under one configuration, as the driver loop applies it. */
  function Stepper(currency: Option<string>, base: BaseParse, seed: IdSeed): (Row, set<string>) -> Result<Step, ParseError> {
    (row, issued) => ParseRecord(row, currency, base, seed, issued)
  }

  /** Whether a row raises does not depend on the ids issued before it. */
  lemma RaisingIgnoresIssued(row: Row, currency: Option<string>, base: BaseParse, seed: IdSeed, s: set<string>, t: set<string>)
    ensures ParseRecord(row, currency, base, seed, s).Success? == ParseRecord(row, currency, base, seed, t).Success?
  {
  }

  /**
   * A successful run of the driver loop means no row raised, whatever ids
   * had been issued when it came.
   */
  lemma RowsDoNotRaise(rows: seq<Row>, currency: Option<string>, base: BaseParse, seed: IdSeed, issued: set<string>)
    requires Fold(rows, Stepper(currency, base, seed), issued).Success?
    ensures forall j, s :: 0 <= j < |rows| ==> ParseRecord(rows[j], currency, base, seed, s).Success?
  {
    var ok := (row: Row) => ParseRecord(row, currency, base, seed, {}).Success?;
    forall j, s | 0 <= j < |rows|
      ensures Stepper(currency, base, seed)(rows[j], s).Success? <==> ok(rows[j])
    {
      RaisingIgnoresIssued(rows[j], currency, base, seed, s, {});
    }
    FoldNoStepFailed(rows, Stepper(currency, base, seed), issued, ok);
  }

  /**
   * A kept line is the line its row gives: the base mapping's date, amount
   * and reference number, the memo of the row, the payee of column 12 (or
   * the base's when that column is empty), an id that is one of the
   * candidates for the seed of the base line with that memo, and a type
   * from the amount's sign.
   */
  ghost predicate LineFitsRow(base: BaseParse, seed: IdSeed, row: Row, l: Line) {
    && |row| > PayeeAccountColumn
    && base(row).Success? && base(row).value.Some?
    && var b := base(row).value.value;
       && l.memo == Memo.MakeMemo(row[DescriptionColumn], row[ReferenceColumn],
                                  row[ExchangeFromColumn], row[ExchangeToColumn], row[ExchangeRateColumn])
       && l.amount == b.amount && l.date == b.date && l.refnum == b.refnum
       && l.bankAccountTo == PayeeFor(row[PayeeAccountColumn], b.bankAccountTo)
       && l.id.Some? && (exists k: nat :: l.id.value == Dedup.Candidate(seed(b.(memo := l.memo)), k))
       && l.amount.Some?
       && l.trntype == InferTrnType(l.amount.value)
  }

  /**
   * The host's driver loop over the data records, threading the issued
   * ids from one record to the next. Every line has an id and an amount,
   * and its type follows the amount's sign; the issued set only grows. A
   * row that raises aborts the whole parse.
   */
  function ParseRows(rows: seq<Row>, currency: Option<string>, base: BaseParse, seed: IdSeed, issued: set<string>): (r: Result<(seq<Line>, set<string>), ParseError>)
    ensures r.Success? ==> |r.value.0| <= |rows| && issued <= r.value.1
    ensures r.Success? ==> forall i :: 0 <= i < |r.value.0| ==>
              && r.value.0[i].id.Some?
              && r.value.0[i].amount.Some?
              && r.value.0[i].trntype == InferTrnType(r.value.0[i].amount.value)
    ensures r.Success? ==> forall j, s :: 0 <= j < |rows| ==> ParseRecord(rows[j], currency, base, seed, s).Success?
  {
    var r := Fold(rows, Stepper(currency, base, seed), issued);
    if r.Success? then
      RowsDoNotRaise(rows, currency, base, seed, issued);
      FoldIdsFresh(rows, Stepper(currency, base, seed), issued);
      FoldFollowsKept(rows, Stepper(currency, base, seed), issued, (row: Row) => Keeps(row, currency, base),
                      (row: Row, l: Line) => LineFitsRow(base, seed, row, l));
      r
    else r
  }

  /**
   * Ids issued within one parse are pairwise different, none was issued
   * before it, and the issued set grows by exactly the ids of the lines.
   */
  lemma ParsedIdsFresh(rows: seq<Row>, currency: Option<string>, base: BaseParse, seed: IdSeed, issued: set<string>)
    requires ParseRows(rows, currency, base, seed, issued).Success?
    ensures var (lines, final) := ParseRows(rows, currency, base, seed, issued).value;
            && HasIds(lines)
            && DistinctIds(lines)
            && (forall i :: 0 <= i < |lines| ==> lines[i].id.value !in issued)
            && final == issued + IdSet(lines)
  {
    FoldIdsFresh(rows, Stepper(currency, base, seed), issued);
  }

  /** The rows the parser keeps, in order. */
  function KeptRows(rows: seq<Row>, currency: Option<string>, base: BaseParse): (kept: seq<Row>)
    ensures |kept| <= |rows|
    ensures forall i :: 0 <= i < |kept| ==> Keeps(kept[i], currency, base)
  {
    Filter(rows, (row: Row) => Keeps(row, currency, base))
  }

  /**
   * A successful parse emits exactly one line per kept row, in row order,
   * each line the one its row gives: the row's memo and payee, the base
   * line's date, amount and reference number, and an id derived from the
   * base line's seed.
   */
  lemma LinesFollowKeptRows(rows: seq<Row>, currency: Option<string>, base: BaseParse, seed: IdSeed, issued: set<string>)
    requires ParseRows(rows, currency, base, seed, issued).Success?
    ensures var lines := ParseRows(rows, currency, base, seed, issued).value.0;
            var kept := KeptRows(rows, currency, base);
            && |lines| == |kept|
            && forall i :: 0 <= i < |lines| ==> LineFitsRow(base, seed, kept[i], lines[i])
  {
    FoldFollowsKept(rows, Stepper(currency, base, seed), issued, (row: Row) => Keeps(row, currency, base),
                    (row: Row, l: Line) => LineFitsRow(base, seed, row, l));
  }

  /** With no currency configured every row is dropped: the comparison never matches. */
  lemma UnsetCurrencyDropsAll(rows: seq<Row>, base: BaseParse, seed: IdSeed, issued: set<string>)
    requires ParseRows(rows, None, base, seed, issued).Success?
    ensures ParseRows(rows, None, base, seed, issued).value.0 == []
  {
    FoldKeepsNone(rows, Stepper(None, base, seed), issued);
  }

  /**
   * When every row is complete, mapped by the base to a line with an amount
   * and in the configured currency, the parse succeeds with exactly one
   * line per row: none is dropped.
   */
  lemma MatchingRowsAllKept(rows: seq<Row>, currency: Option<string>, base: BaseParse, seed: IdSeed, issued: set<string>)
    requires forall i :: 0 <= i < |rows| ==>
               Keeps(rows[i], currency, base) && |rows[i]| > PayeeAccountColumn
               && base(rows[i]).value.value.amount.Some?
    ensures ParseRows(rows, currency, base, seed, issued).Success?
    ensures |ParseRows(rows, currency, base, seed, issued).value.0| == |rows|
  {
    FoldKeepsAll(rows, Stepper(currency, base, seed), issued);
  }

  /**
   * A whole parse: skip the header, normalise the data records, and attach
   * the configured currency and account, whatever the rows hold. Ids are
   * unique and none collides with an id the parser issued before.
   */
  function Parse(p: Parser, records: seq<Row>, base: BaseParse, seed: IdSeed): (r: Result<Statement, ParseError>)
    ensures r.Success? ==> r.value.currency == p.currency && r.value.accountId == p.accountId
    ensures r.Success? ==> |r.value.lines| == |KeptRows(SplitRecords(records), p.currency, base)|
    ensures r.Success? ==> HasIds(r.value.lines) && DistinctIds(r.value.lines)
    ensures r.Success? ==> forall i :: 0 <= i < |r.value.lines| ==> r.value.lines[i].id.value !in p.unique
  {
    var res :- ParseRows(SplitRecords(records), p.currency, base, seed, p.unique);
    ParsedIdsFresh(SplitRecords(records), p.currency, base, seed, p.unique);
    LinesFollowKeptRows(SplitRecords(records), p.currency, base, seed, p.unique);
    Success(Statement(res.0, p.currency, p.accountId))
  }

  /**
   * A freshly constructed parser given a header and rows that are all
   * complete and in its currency: the parse succeeds with one line per row,
   * with pairwise distinct ids.
   */
  lemma FreshParserKeepsEveryRow(currency: Option<string>, accountId: Option<string>, header: Row, rows: seq<Row>,
                                 base: BaseParse, seed: IdSeed)
    requires forall i :: 0 <= i < |rows| ==>
               Keeps(rows[i], currency, base) && |rows[i]| > PayeeAccountColumn
               && base(rows[i]).value.value.amount.Some?
    ensures Parse(NewParser(currency, accountId), [header] + rows, base, seed).Success?
    ensures var lines := Parse(NewParser(currency, accountId), [header] + rows, base, seed).value.lines;
            |lines| == |rows| && DistinctIds(lines)
  {
    SplitRecordsDropsHeader(header, rows);
    MatchingRowsAllKept(rows, currency, base, seed, {});
  }
}

=== FILE: wise.dfy ===
/**
 * The newer Wise parser: fields are looked up by header name, the id and
 * the transaction type are taken verbatim from the record, and the memo
 * and currency rules are those of the legacy parser.
 */
module Wise {
  import opened Wrappers
  import opened Ofx
  import Memo
  import opened Driver

  /** Header names of the export. */
  const IdKey := "TransferWise ID"
  const DateKey := "Date Time"
  const DescriptionKey := "Description"
  const AmountKey := "Amount"
  const CurrencyKey := "Currency"
  const ReferenceKey := "Payment Reference"
  const ExchangeFromKey := "Exchange From"
  const ExchangeToKey := "Exchange To"
  const ExchangeRateKey := "Exchange Rate"
  const PayeeAccountKey := "Payee Account Number"
  const TypeKey := "Transaction Type"

  /** One data record, keyed by header name. */
  type Record = map<string, string>

  /** Parser configuration. */
  datatype Parser = Parser(currency: Option<string>, accountId: Option<string>)

  /** Looking a header up; a missing one raises. */
  function Field(rec: Record, name: string): (r: Result<string, ParseError>)
    ensures r.Success? <==> name in rec
    ensures r.Success? ==> r.value == rec[name]
    ensures r.Failure? ==> r.error == MissingField(name)
  {
    if name in rec then Success(rec[name]) else Failure(MissingField(name))
  }

  /** The headers read after the currency check; fields the memo and payee rules need. */
  predicate HasLineFields(rec: Record) {
    && ReferenceKey in rec && ExchangeFromKey in rec && ExchangeToKey in rec
    && ExchangeRateKey in rec && PayeeAccountKey in rec && TypeKey in rec
  }

  /** The fields read before the currency check are present and decode. */
  predicate Extractable(rec: Record, dec: Decoders) {
    && IdKey in rec && DateKey in rec && DescriptionKey in rec && AmountKey in rec && CurrencyKey in rec
    && dec.date(rec[DateKey]).Some? && dec.amount(rec[AmountKey]).Some?
  }

  /** The memo of a record, looked up in description, reference, from, to, rate order. */
  function RecordMemo(rec: Record): (r: Result<string, ParseError>)
    ensures r.Success? <==> (DescriptionKey in rec && ReferenceKey in rec && ExchangeFromKey in rec
                             && ExchangeToKey in rec && ExchangeRateKey in rec)
    ensures r.Success? ==> r.value == Memo.MakeMemo(rec[DescriptionKey], rec[ReferenceKey],
                                                    rec[ExchangeFromKey], rec[ExchangeToKey],
                                                    rec[ExchangeRateKey])
  {
    var descr :- Field(rec, DescriptionKey);
    var payref :- Field(rec, ReferenceKey);
    var excFrom :- Field(rec, ExchangeFromKey);
    var excTo :- Field(rec, ExchangeToKey);
    var excRate :- Field(rec, ExchangeRateKey);
    Success(Memo.MakeMemo(descr, payref, excFrom, excTo, excRate))
  }

  /**
   * One record to at most one line. Id, date, description and amount are
   * read (and decoded) before the currency check, so a record lacking one
   * of them fails even when its currency would have dropped it. A kept
   * record's line carries the id and type verbatim, the synthesized memo,
   * and the payee account exactly when one is named.
   */
  function ParseRecord(rec: Record, currency: Option<string>, dec: Decoders): (r: Result<Option<Line>, ParseError>)
    ensures IdKey !in rec ==> r == Failure(MissingField(IdKey))
    ensures !Extractable(rec, dec) ==> r.Failure?
    ensures (Extractable(rec, dec) && Some(rec[CurrencyKey]) != currency) ==> r == Success(None)
    ensures (Extractable(rec, dec) && Some(rec[CurrencyKey]) == currency && HasLineFields(rec))
            ==> r.Success? && r.value.Some?
    ensures r.Success? && r.value.None? ==> CurrencyKey in rec && Some(rec[CurrencyKey]) != currency
    ensures r.Success? && r.value.Some? ==>
              var l := r.value.value;
              && Extractable(rec, dec) && HasLineFields(rec)
              && Some(rec[CurrencyKey]) == currency
              && l.id == Some(rec[IdKey])
              && l.refnum.None?
              && l.trntype == rec[TypeKey]
              && l.date == dec.date(rec[DateKey])
              && l.amount == dec.amount(rec[AmountKey])
              && l.memo == Memo.MakeMemo(rec[DescriptionKey], rec[ReferenceKey],
                                         rec[ExchangeFromKey], rec[ExchangeToKey],
                                         rec[ExchangeRateKey])
              && (l.bankAccountTo.Some? <==> rec[PayeeAccountKey] != "")
              && (rec[PayeeAccountKey] != "" ==> l.bankAccountTo == Some(PayeeAccount(rec[PayeeAccountKey])))
  {
    var id :- Field(rec, IdKey);
    var dateText :- Field(rec, DateKey);
    var date :- DecodeDate(dec, dateText);
    var descr :- Field(rec, DescriptionKey);
    var amountText :- Field(rec, AmountKey);
    var amount :- DecodeAmount(dec, amountText);
    var ccy :- Field(rec, CurrencyKey);
    if Some(ccy) != currency then Success(None)
    else
      var memo :- RecordMemo(rec);
      var payeeAccNo :- Field(rec, PayeeAccountKey);
      var trntype :- Field(rec, TypeKey);
      Success(Some(Line(Some(id), None, Some(date), memo, Some(amount), trntype, PayeeFor(payeeAccNo, None))))
  }

  /** `ParseRecord` under one configuration, as the driver loop applies it. */
  function Normaliser(currency: Option<string>, dec: Decoders): Record -> Result<Option<Line>, ParseError> {
    rec => ParseRecord(rec, currency, dec)
  }

  /**
   * The host's driver loop over the records. Every line is the line of one
   * of the records, so it carries an id and an amount. A record that
   * raises, whatever its currency, aborts the whole parse.
   */
  function ParseRecords(recs: seq<Record>, currency: Option<string>, dec: Decoders): (r: Result<seq<Line>, ParseError>)
    ensures r.Success? ==> |r.value| <= |recs|
    ensures r.Success? ==> forall j :: 0 <= j < |recs| ==> ParseRecord(recs[j], currency, dec).Success?
    ensures r.Success? ==> forall i :: 0 <= i < |r.value| ==>
              exists j :: 0 <= j < |recs| && ParseRecord(recs[j], currency, dec) == Success(Some(r.value[i]))
    ensures r.Success? ==> forall i :: 0 <= i < |r.value| ==> r.value[i].id.Some? && r.value[i].amount.Some?
  {
    var r := FilterMap(recs, Normaliser(currency, dec));
    if r.Success? then
      LinesComeFromRecords(recs, Normaliser(currency, dec));
      NoRecordFailed(recs, Normaliser(currency, dec));
      r
    else r
  }

  /** The record is in the configured currency. */
  function InCurrency(currency: Option<string>): Record -> bool {
    rec => CurrencyKey in rec && Some(rec[CurrencyKey]) == currency
  }

  /** The records in the configured currency, in order. */
  function KeptRecords(recs: seq<Record>, currency: Option<string>): (kept: seq<Record>)
    ensures |kept| <= |recs|
    ensures forall i :: 0 <= i < |kept| ==> CurrencyKey in kept[i] && Some(kept[i][CurrencyKey]) == currency
  {
    Filter(recs, InCurrency(currency))
  }

  /**
   * A successful parse emits one line per record in the configured
   * currency, in order, whose id is that record's id field unchanged.
   */
  lemma IdsAreRecordIds(recs: seq<Record>, currency: Option<string>, dec: Decoders)
    requires ParseRecords(recs, currency, dec).Success?
    ensures var lines := ParseRecords(recs, currency, dec).value;
            var kept := KeptRecords(recs, currency);
            && |lines| == |kept|
            && forall i :: 0 <= i < |lines| ==> IdKey in kept[i] && lines[i].id == Some(kept[i][IdKey])
  {
    var f := Normaliser(currency, dec);
    LinesAreKeptRecords(recs, f, InCurrency(currency));
  }

  /** An error in an earlier batch of records is the error of the whole parse. */
  lemma ParseRecordsAppendFailure(a: seq<Record>, b: seq<Record>, currency: Option<string>, dec: Decoders)
    requires ParseRecords(a, currency, dec).Failure?
    ensures ParseRecords(a + b, currency, dec) == ParseRecords(a, currency, dec)
  {
    AppendFailure(a, b, Normaliser(currency, dec));
  }

  /**
   * Parsing is compositional: when two batches of records parse, their
   * concatenation parses to the first batch's lines followed by the
   * second's, so record order is kept.
   */
  lemma ParseRecordsAppend(a: seq<Record>, b: seq<Record>, currency: Option<string>, dec: Decoders)
    requires ParseRecords(a, currency, dec).Success? && ParseRecords(b, currency, dec).Success?
    ensures ParseRecords(a + b, currency, dec)
              == Success(ParseRecords(a, currency, dec).value + ParseRecords(b, currency, dec).value)
  {
    Append(a, b, Normaliser(currency, dec));
  }

  /**
   * No de-duplication: a record repeated verbatim yields two lines with the
   * same id.
   */
  lemma RepeatedRecordRepeatsId(rec: Record, currency: Option<string>, dec: Decoders)
    requires ParseRecord(rec, currency, dec).Success? && ParseRecord(rec, currency, dec).value.Some?
    ensures var lines := ParseRecords([rec, rec], currency, dec);
            lines.Success? && |lines.value| == 2 && lines.value[0].id == lines.value[1].id == Some(rec[IdKey])
  {
    var l := ParseRecord(rec, currency, dec).value.value;
    assert [rec][0] == rec && [rec][1..] == [];
    assert ParseRecords([], currency, dec) == Success([]);
    var one := ParseRecords([rec], currency, dec);
    assert ParseRecord([rec][0], currency, dec) == Success(Some(l));
    assert one.Success?;
    assert one.value == [l] + [] == [l];
    assert [rec, rec][0] == rec && [rec, rec][1..] == [rec];
    assert ParseRecords([rec, rec], currency, dec).value == [l] + [l] == [l, l];
  }

  /** With no currency configured every record is dropped. */
  lemma {:induction false} UnsetCurrencyDropsAll(recs: seq<Record>, dec: Decoders)
    requires ParseRecords(recs, None, dec).Success?
    ensures ParseRecords(recs, None, dec).value == []
    decreases |recs|
  {
    if |recs| > 0 {
      UnsetCurrencyDropsAll(recs[1..], dec);
    }
  }

  /** A whole parse: the configured currency and account are attached whatever the records hold. */
  function Parse(p: Parser, recs: seq<Record>, dec: Decoders): (r: Result<Statement, ParseError>)
    ensures r.Success? ==> r.value.currency == p.currency && r.value.accountId == p.accountId
    ensures r.Success? ==> |r.value.lines| == |KeptRecords(recs, p.currency)|
    ensures r.Success? ==> HasIds(r.value.lines)
  {
    var lines :- ParseRecords(recs, p.currency, dec);
    IdsAreRecordIds(recs, p.currency, dec);
    Success(Statement(lines, p.currency, p.accountId))
  }
}

=== FILE: wrappers.dfy ===
/** Failure-compatible wrappers: an optional value and a value-or-error result. */
module Wrappers {

  /** A value that may be absent (Python's `None`). */
  datatype Option<+T> = None | Some(value: T)

  /** The outcome of a step that may raise: a value, or the error that aborts the parse. */
  datatype Result<+T, +E> = Success(value: T) | Failure(error: E) {

    predicate IsFailure() {
      Failure?
    }

    function PropagateFailure<U>(): Result<U, E>
      requires Failure?
    {
      Failure(error)
    }

    function Extract(): T
      requires Success?
    {
      value
    }
  }
}
